=== FILE: README.md ===
# Domino window and ball actuator, modelled in Dafny

This project models the interaction logic of the Domino page. The page has a
draggable, closable window widget that hosts a physics scene, and in that
scene a ball the user steers with the keyboard.

The window exists in three implementations with the same state machine:
- the plain TypeScript class `DominoWindow` (`script.ts`);
- its compiled JavaScript (`script.js`);
- the React component `DominoWindow` (`src/DominoWindow.tsx`).

Each keeps a drag flag, a grab offset captured on mouse-down, the window's
top-left position and its visibility. Mouse-down on the title bar starts a
drag and records `pointer - rect top-left`. Every mouse-move during a drag
writes `pointer - offset`, hard-clamped per axis with
`Math.max(0, Math.min(v, viewport - element size))`. Mouse-up ends the drag
and removes the document listeners. Close, hide and show change visibility
only.

The ball (`src/assets/Ball.tsx`) keeps a set of pressed keys, lowercased on
key-down and key-up. Each frame it:
1. builds a target velocity from `w`/`s` (z axis) and `a`/`d` (x axis);
2. blends the current velocity 15% of the way toward that target;
3. multiplies it by a further 0.8 when no key at all is held;
4. writes the result to the physics body with y forced to 0.

A controllable ball is a kinematic body of mass 0. Any other ball is dynamic
with mass 1. The ball's start height is always 1.6.

Modules:
- `Geometry` (geometry.dfy): points, sizes, the clamp, grab offset and
  candidate position. It is defined once and shared by the three windows.
- `Dom` (dom.dfy): inline style, display values and listener identities.
- `ScriptTs` (script_ts.dfy) and `ScriptJs` (script_js.dfy): the two
  plain-script classes.
- `ReactWindow` (react_window.dfy): the React component.
- `BallActuator` (ball.dfy): the keyboard velocity actuator.
- `Wrappers` (wrappers.dfy): `Option`.

Each window is a class whose fields are the source's fields or state. The
registered event listeners are a `set` of handler identities. Adding a
handler that is already registered is a no-op, as with `addEventListener`
on the same function object. An event method first checks that its
listener is registered, because the browser delivers events only to
registered listeners, and then runs the handler body. That is how a widget
whose elements were not found stays inert. The React component's title-bar
and close handlers are JSX props rather than registered listeners, so its
`MouseDown` checks `windowMounted` and its `ClickClose` checks `isVisible`
instead. The class invariant `Valid()`
states that the document listeners are registered exactly while a drag is
in progress.

## Model

| member | source | states |
|---|---|---|
| Geometry.Min | script.ts:50-51 | `Math.min`: the result is at most both arguments and is one of them. |
| Geometry.Max | script.ts:50-51 | `Math.max`: the result is at least both arguments and is one of them. |
| Geometry.MaxPosition | script.ts:47-48 | The largest allowed left/top: an element placed there has its right and bottom edges exactly on the viewport's. |
| Geometry.GrabOffset | script.ts:28-31 | The grab offset is what must be added to the rect's top-left to reach the pointer. |
| Geometry.Candidate | script.ts:43-44 | The unclamped candidate plus the grab offset gives back the pointer. |
| Geometry.Clamp | script.ts:50-51 | The written coordinate is at least 0. It is at most max when max >= 0. A value already inside [0, max] is unchanged. A value above max gives max. A negative value, or a negative max, gives exactly 0. |
| Geometry.ClampPoint | src/DominoWindow.tsx:42-43 | Per axis: the result is at least 0 and at most the bound when the bound is non-negative. A coordinate inside [0, bound] is kept, one past the bound snaps to it, and one below 0 or against a negative bound gives 0. Together these fix the result on every input. |
| Geometry.DragTarget | src/DominoWindow.tsx:35-45 | Per axis, the position a move writes lies in [0, viewport - element] when that range is non-empty, and is 0 when the element is larger than the viewport. Per axis, a candidate `pointer - offset` coordinate inside the range is written exactly, one past the right or bottom limit snaps to that limit, and one below 0 snaps to 0. |
| Geometry.ClampIdempotent | script.js:14-15 | Clamping an already clamped coordinate changes nothing. |
| Geometry.ClampIsNearest | script.ts:47-51 | When max >= 0, the clamp is the point of [0, max] nearest to the candidate. This is an independent characterisation of `Math.max(0, Math.min(v, max))`. |
| Geometry.ClampMonotone | src/DominoWindow.tsx:39-43 | A pointer further right (or down) never yields a position further left (or up). |
| Geometry.CandidateFollowsPointer | script.ts:28-44 | The candidate after grabbing at `down` is the grabbed rect shifted by the pointer's displacement. A move at the mouse-down coordinates proposes the rect's own top-left. |
| Geometry.DragExample | script.js:9-17 | Worked case: a 300x200 window at (100, 50) in a 1024x768 viewport, grabbed at (150, 100). A move to (500, 100) gives (450, 50). A move to (1200, 100) is hard-clamped to x = 724. |
| ScriptTs.DominoWindow.constructor | script.ts:12-20 | Initially not dragging, offset (0, 0), style untouched. The title-bar and close-button listeners are attached iff both elements were found. |
| ScriptTs.DominoWindow.InitializeDragBehavior | script.ts:22-25 | Registers the title bar's mouse-down listener. |
| ScriptTs.DominoWindow.InitializeCloseButton | script.ts:63-64 | Registers the close button's click listener. |
| ScriptTs.DominoWindow.MouseDown | script.ts:25-37 | On an active widget, the drag starts, the offset is `pointer - rect`, and both document listeners are registered (idempotently). On an inert widget nothing changes. |
| ScriptTs.DominoWindow.MouseMove | script.ts:40-55 | Outside a drag the style is unchanged. During a drag left/top become the clamped `pointer - dragOffset` and display is kept. Drag state and listeners never change. |
| ScriptTs.DominoWindow.MouseUp | script.ts:57-61 | Afterwards the widget is not dragging and both document listeners are gone. The element listeners are kept. |
| ScriptTs.DominoWindow.ClickClose | script.ts:64-66 | On an active widget display becomes none. Left, top and drag state are unchanged. |
| ScriptTs.DominoWindow.Show | script.ts:69-71 | Display becomes flex and nothing else changes. Without a window element the call fails (`ok` false). |
| ScriptTs.DominoWindow.Hide | script.ts:73-75 | Display becomes none and nothing else changes. Without a window element the call fails. |
| ScriptTs.DragThenRelease | script.ts:40-61 | After grab, move, release and a further move, the window sits at the first move's clamped target. It is not dragging and only the element listeners remain. |
| ScriptTs.InertWithoutElements | script.ts:16-19 | With either element missing, mouse-down, move, close click and mouse-up leave the style, the drag flag and the (empty) listener set unchanged. |
| ScriptJs.DominoWindow.constructor | script.js:3-30 | Same initial state as the TypeScript class. The element listeners are attached iff both lookups succeeded. |
| ScriptJs.DominoWindow.InitializeDragBehavior | script.js:31-33 | Registers the title bar's mouse-down listener. |
| ScriptJs.DominoWindow.InitializeCloseButton | script.js:45-46 | Registers the close button's click listener. |
| ScriptJs.DominoWindow.MouseDown | script.js:33-43 | On a wired widget, dragging starts with offset `pointer - rect`. The registered set is then exactly the element listeners plus the two document listeners. |
| ScriptJs.DominoWindow.MouseMove | script.js:6-18 | A no-op unless dragging. During a drag it writes the clamped candidate to left/top. |
| ScriptJs.DominoWindow.MouseUp | script.js:19-23 | Clears the drag flag. Only the element listeners remain registered. |
| ScriptJs.DominoWindow.ClickClose | script.js:46-48 | Hides a wired widget without touching its position. |
| ScriptJs.DominoWindow.Show | script.js:50-52 | Display becomes flex, or the call fails without a window element. |
| ScriptJs.DominoWindow.Hide | script.js:53-55 | Display becomes none, or the call fails without a window element. |
| ScriptJs.RepeatedMouseDown | script.js:34-41 | A second mouse-down during a drag only re-captures the offset. The listeners are not registered twice, so one mouse-up leaves no document listener behind. |
| ScriptJs.HideShowKeepsPosition | script.js:45-55 | A dragged window keeps its left/top through hide and show. Only display changes, and it ends as flex. |
| ReactWindow.DominoWindow.constructor | src/DominoWindow.tsx:13-18 | Initial state: position (20, 50), not dragging, visible, no document listeners, onClose not yet called. |
| ReactWindow.DominoWindow.Rendered | src/DominoWindow.tsx:70-79 | Definition, no contract: the window at `position` while visible, nothing otherwise. What it yields after events is stated by ClickClose, DragSession and CloseTwice. |
| ReactWindow.DominoWindow.SyncListeners | src/DominoWindow.tsx:53-63 | After the effect, the document listeners are both registered iff `isDragging`, and none otherwise. |
| ReactWindow.DominoWindow.MouseDown | src/DominoWindow.tsx:20-30 | With no mounted window element nothing changes. Otherwise dragging starts, `dragOffset = pointer - rect`, and the effect registers both listeners. |
| ReactWindow.DominoWindow.MouseMove | src/DominoWindow.tsx:32-46 | Ignored unless dragging with a mounted element. Otherwise the position becomes the per-axis clamp of `pointer - dragOffset`. |
| ReactWindow.DominoWindow.MouseUp | src/DominoWindow.tsx:48-50 | Dragging becomes false and the effect removes both listeners. The position is not touched. |
| ReactWindow.DominoWindow.ClickClose | src/DominoWindow.tsx:65-70 | Afterwards the window is invisible and renders nothing. onClose has been called exactly once if it was given, and never otherwise. |
| ReactWindow.DragSession | src/DominoWindow.tsx:48-63 | Grab, move, release and a further move leave the window rendered at the first move's clamped target. It is not dragging and has no document listeners. |
| ReactWindow.CloseTwice | src/DominoWindow.tsx:65-70 | Two closes call onClose once. A later mouse-down starts no drag and nothing is rendered. |
| BallActuator.LowerChar | src/assets/Ball.tsx:55 | The result is never an upper-case letter. A character is kept exactly when it is not upper case, and an upper-case letter becomes a lower-case one. |
| BallActuator.ToLower | src/assets/Ball.tsx:55 | The key is lowered character by character with its length kept, and the result contains no upper-case letter. |
| BallActuator.ToLowerIdempotent | src/assets/Ball.tsx:59 | Lowering a lowered key changes nothing, so keys are stored and removed under the same name. |
| BallActuator.Press | src/assets/Ball.tsx:54-56 | Key-down adds the lowercased key and adds nothing else. |
| BallActuator.Release | src/assets/Ball.tsx:58-60 | Key-up removes the lowercased key and removes nothing else. |
| BallActuator.PressReleaseRestores | src/assets/Ball.tsx:54-60 | Key-down then key-up of a key not previously held restores the original set, even if the two events differ in case. |
| BallActuator.ShiftedKeySteers | src/assets/Ball.tsx:55-79 | An upper-case "W" is stored as "w" and steers toward -z. |
| BallActuator.Target | src/assets/Ball.tsx:76-85 | Target y is 0. Target z is speed if 's' is held, else -speed if 'w' is held, else 0. Target x is speed if 'd' is held, else -speed if 'a' is held, else 0. The later key wins, so opposite keys do not cancel. |
| BallActuator.Lerp | src/assets/Ball.tsx:88-89 | After the blend, each component's distance to the target is exactly (1 - alpha) times what it was. |
| BallActuator.FrameVelocity | src/assets/Ball.tsx:87-94 | With no key held, one frame multiplies the velocity by 0.68 (lerp to 0, then x0.8). With any key held, including non-movement keys, there is no decay and the distance to the target shrinks by 0.85. |
| BallActuator.Scale | src/assets/Ball.tsx:93 | Definition, no contract: `multiplyScalar`. Its composition is stated by ScaleTwice. |
| BallActuator.ScaleTwice | src/assets/Ball.tsx:93 | Two `multiplyScalar` calls equal one by the product of the factors. |
| BallActuator.Frames | src/assets/Ball.tsx:72-94 | Definition, no contract: the velocity after n `useFrame` calls with the same keys. Stated by the lemmas below. |
| BallActuator.Written | src/assets/Ball.tsx:97-101 | Definition, no contract: the velocity handed to `api.velocity.set`. See WrittenIsHorizontalProjection and Ball.Frame. |
| BallActuator.WrittenIsHorizontalProjection | src/assets/Ball.tsx:97-101 | The written velocity is horizontal, writing it again changes nothing, and it equals the velocity exactly when that is already horizontal. |
| BallActuator.IdleFrameExample | src/assets/Ball.tsx:92-94 | A ball at x = 8 reaches 5.44 after one idle frame, not 6.4. |
| BallActuator.HeldOtherKeyExample | src/assets/Ball.tsx:91-94 | Holding only a non-movement key, the same ball reaches 6.8: the decay is suppressed. |
| BallActuator.ApproachClosedForm | src/assets/Ball.tsx:88-89 | On one axis with a fixed target, after n frames the distance to the target is 0.85^n times the initial distance. |
| BallActuator.HeldFramesPerAxis | src/assets/Ball.tsx:76-89 | With the key set fixed and non-empty, n frames act on x, y and z independently, each approaching its target component. |
| BallActuator.HeldKeysConverge | src/assets/Ball.tsx:88-89 | With a fixed non-empty key set, after n frames each axis's distance to the target is 0.85^n times the initial distance. |
| BallActuator.IdleFramesDecay | src/assets/Ball.tsx:89-94 | With no key held, n frames multiply the velocity by 0.68^n. |
| BallActuator.Pow | src/assets/Ball.tsx:88-94 | A power of a factor in (0, 1] is itself in (0, 1]: repeated frames never amplify. |
| BallActuator.ScaleByFraction | src/assets/Ball.tsx:93 | Scaling by a factor in (0, 1] keeps the sign of a component and never increases its magnitude. |
| BallActuator.IdleFramesNeverSpeedUp | src/assets/Ball.tsx:91-94 | With no key held, after any number of frames neither horizontal component is larger in magnitude than at the start, and x never reverses sign. |
| BallActuator.NoOvershoot | src/assets/Ball.tsx:88-89 | With keys held, x and z after any number of frames lie between their start and the target: the lerp never overshoots. |
| BallActuator.StepTowardTarget | src/assets/Ball.tsx:87-89 | One held-key frame keeps x and z between their previous value and the target, and never increases their distance to it. |
| BallActuator.ForwardFromRest | src/assets/Ball.tsx:78-89 | Holding 'w' from rest at speed 8, z after n frames is -8 + 8 * 0.85^n and stays within [-8, 0]. |
| BallActuator.AdjustedPosition | src/assets/Ball.tsx:29-32 | Definition, no contract: the prop's x and z at height 1.6. Stated by AdjustedPositionIgnoresHeight. |
| BallActuator.AdjustedPositionIgnoresHeight | src/assets/Ball.tsx:27-32 | The start position takes the prop's x and z, and its height is always 1.6 whatever the prop's y. |
| BallActuator.Descriptor | src/assets/Ball.tsx:35-38 | The body is kinematic iff the ball is controllable. A kinematic body has mass 0 and a dynamic one mass 1. It starts at the adjusted position. |
| BallActuator.Ball.constructor | src/assets/Ball.tsx:23-48 | On mount: empty key set, zero velocities, nothing written to the velocity. The body descriptor is as above. Mass 0 plus the start position are written when controllable, mass 1 otherwise. |
| BallActuator.Ball.AttachKeyListeners | src/assets/Ball.tsx:51-63 | A controllable ball attaches the key-down and key-up listeners. Any other ball attaches none. |
| BallActuator.Ball.SetInitialProperties | src/assets/Ball.tsx:105-112 | Writes mass 0 and the start position when controllable, and mass 1 otherwise. |
| BallActuator.Ball.KeyDown | src/assets/Ball.tsx:54-56 | With the listener attached, the key set becomes `Press(keys, key)`. Otherwise it is unchanged. Stored keys stay lowercase. |
| BallActuator.Ball.KeyUp | src/assets/Ball.tsx:58-60 | With the listener attached, the key set becomes `Release(keys, key)`. Otherwise it is unchanged. |
| BallActuator.Ball.Frame | src/assets/Ball.tsx:72-102 | A ball that is not controllable changes nothing. Otherwise the target becomes `Target(keys, speed)`, the velocity becomes `FrameVelocity(old velocity, keys, speed)`, and `Written(velocity)` is written. The vertical velocity stays 0, so the written velocity is the current velocity itself. |
| BallActuator.Ball.Unmount | src/assets/Ball.tsx:65-68 | The keyboard effect's cleanup removes both key listeners. |
| BallActuator.MountWithDefaults | src/assets/Ball.tsx:16-22 | With every prop at its default (origin, not controllable, speed 4) the ball attaches no key listener and is a dynamic body of mass 1 at (0, 1.6, 0). |
| BallActuator.UncontrolledBallIsPassive | src/assets/Ball.tsx:52-73 | A ball that is not controllable ignores key events, writes no velocity, and is a dynamic body of mass 1. |
| BallActuator.SteerOneFrame | src/assets/Ball.tsx:72-101 | At speed 8, holding 'w' and 'A' for one frame from rest writes velocity (-1.2, 0, -1.2). |

## Left out

- Rendering and scene setup are presentation configuration with no logic: the JSX, the CSS, `src/assets/DominoScene.tsx`, `src/assets/Lighting.tsx` and `src/App.tsx`.
- `src/assets/Box.tsx` only configures a physics body, plus a constant +0.1 height offset. There is nothing in it to state.
- The physics engine (integration, contacts, gravity) is a library outside this model. The ball is followed only up to the values it writes with `api.velocity.set`, `api.mass.set` and `api.position.set`. The body's material and damping parameters are not recorded.
- DOM layout is abstracted. `getBoundingClientRect`, `offsetWidth`/`offsetHeight` and `innerWidth`/`innerHeight` become event parameters, so the model does not relate the rect to the last written left/top. Style strings such as `` `${x}px` `` are modelled as the number written.
- `querySelector('.title-bar')` is assumed to find the title bar inside a found window. A missing title bar, which would throw during construction, is not modelled.
- `preventDefault()` on mouse-down changes no widget state and is left out.
- Geometry.Min: JavaScript numbers are modelled as exact reals. NaN and infinities, where `Math.min`/`Math.max` differ from the two-way comparison used here, are not modelled. The same holds for Geometry.Max.
- BallActuator.Lerp: IEEE-754 rounding in the lerp and the decay is not modelled. The arithmetic is exact over reals. The same holds for BallActuator.FrameVelocity.
- BallActuator.ToLower and BallActuator.LowerChar: only the ASCII letters A-Z are lowered. `String.prototype.toLowerCase` also lowers other Unicode letters, which no movement key uses.
- React mechanics are abstracted. The order of re-render and effect is taken as "state updates of a handler, then the listener effect". `useCallback` identities and stale closures are not modelled. A `controllable` prop that changes after mount is not modelled, because the ball's props are constants.
- ReactWindow.DominoWindow.MouseMove: the handler is the closure registered while `isDragging` was true. The model reads the current `isDragging`, which equals the captured value whenever the listener is registered.
- BallActuator.Ball.Frame requires a mounted ball: the frame loop stops calling the callback after unmount.
- None of the three window implementations has elastic resistance, snap-back or momentum: each hard-clamps on every move, and so does the model.
- Opposite movement keys do not cancel in the code: the later-tested key wins (BallActuator.Target). The idle frame both blends and decays, 0.68 per frame (BallActuator.IdleFrameExample).
- The ball's `scale`, `color` and `radius` props and their defaults only affect rendering and the body's shape, and are not modelled.

=== FILE: ball.dfy ===
/**
 * The keyboard velocity actuator of the ball (`Ball` in src/assets/Ball.tsx).
 *
 * Vector arithmetic is over idealised `real`s (no IEEE-754 rounding). The
 * physics engine is not modelled: the actuator is followed up to the values
 * it hands to the body (`api.velocity.set`, `api.mass.set`,
 * `api.position.set`), which are recorded as the last value written.
 */
module BallActuator {
  import opened Wrappers
  import Geometry

  /** A `THREE.Vector3`. */
  datatype Vec3 = Vec3(x: real, y: real, z: real)

  datatype BodyType = Kinematic | Dynamic

  /** The sphere body handed to the physics provider (the part the component chooses). */
  datatype BodyDescriptor = BodyDescriptor(mass: real, bodyType: BodyType, position: Vec3)

  /** The listeners the keyboard effect attaches to `window`. */
  datatype KeyHandler = WindowKeyDown | WindowKeyUp

  const Zero := Vec3(0.0, 0.0, 0.0)

  /** `lerpFactor` of each frame's blend toward the target velocity. */
  const LerpFactor: real := 0.15

  /** Extra `multiplyScalar` applied on frames with no key held. */
  const IdleDecay: real := 0.8

  /** Start height of the ball's centre, whatever the `position` prop says. */
  const BallHeight: real := 1.6

  const KeyHandlers: set<KeyHandler> := {WindowKeyDown, WindowKeyUp}

  /** Defaults of the props the actuator reads: `position`, `controllable`, `speed`. */
  const DefaultPosition := Vec3(0.0, 0.0, 0.0)
  const DefaultControllable := false
  const DefaultSpeed: real := 4.0

  // ---------------------------------------------------------------------------
  // Key identifiers

  /** `toLowerCase` on one character, for the ASCII letters. */
  function LowerChar(c: char): (r: char)
    ensures !('A' <= r <= 'Z')
    ensures r == c <==> !('A' <= c <= 'Z')
    ensures 'A' <= c <= 'Z' ==> 'a' <= r <= 'z'
  {
    if 'A' <= c <= 'Z' then (c as int + 32) as char else c
  }

  /** `event.key.toLowerCase()`: every letter lowered, everything else kept. */
  function ToLower(key: string): (r: string)
    ensures |r| == |key|
    ensures forall i :: 0 <= i < |r| ==> r[i] == LowerChar(key[i])
    ensures forall i :: 0 <= i < |r| ==> !('A' <= r[i] <= 'Z')
  {
    if key == [] then [] else [LowerChar(key[0])] + ToLower(key[1..])
  }

  /** Lowering twice is lowering once, so a stored key never changes when looked up again. */
  lemma ToLowerIdempotent(key: string)
    ensures ToLower(ToLower(key)) == ToLower(key)
  {
  }

  /** Key-down: the set gains the lowercased key. */
  function Press(keys: set<string>, key: string): (r: set<string>)
    ensures ToLower(key) in r && keys <= r && r - keys <= {ToLower(key)}
  {
    keys + {ToLower(key)}
  }

  /** Key-up: the set loses the lowercased key. */
  function Release(keys: set<string>, key: string): (r: set<string>)
    ensures ToLower(key) !in r && r <= keys && keys - r <= {ToLower(key)}
  {
    keys - {ToLower(key)}
  }

  /**
   * A key-down followed by a key-up of a key that was not held restores the
   * set, even when the two events report the key in different case.
   */
  lemma PressReleaseRestores(keys: set<string>, down: string, up: string)
    requires ToLower(down) !in keys && ToLower(up) == ToLower(down)
    ensures Release(Press(keys, down), up) == keys
  {
  }

  /** Shift+W reports "W", which is stored (and steers) as "w". */
  lemma ShiftedKeySteers(speed: real)
    ensures Press({}, "W") == {"w"}
    ensures Target(Press({}, "W"), speed).z == -speed
  {
    assert LowerChar('W') == 'w';
    assert ToLower("W") == [LowerChar('W')] + ToLower("") == "w";
  }

  // ---------------------------------------------------------------------------
  // The per-frame velocity update

  /**
   * The target velocity, set axis by axis in the order of the source: 'w'
   * then 's' on z, 'a' then 'd' on x. The later key wins, so opposite keys
   * do not cancel.
   */
  function Target(keys: set<string>, speed: real): (t: Vec3)
    ensures t.y == 0.0
    ensures t.z == if "s" in keys then speed else if "w" in keys then -speed else 0.0
    ensures t.x == if "d" in keys then speed else if "a" in keys then -speed else 0.0
  {
    var t0 := Zero;
    var t1 := if "w" in keys then t0.(z := -speed) else t0;
    var t2 := if "s" in keys then t1.(z := speed) else t1;
    var t3 := if "a" in keys then t2.(x := -speed) else t2;
    if "d" in keys then t3.(x := speed) else t3
  }

  /** `Vector3.lerp`: each component moves the fraction `alpha` of the way to the target. */
  function Lerp(v: Vec3, target: Vec3, alpha: real): (r: Vec3)
    ensures r.x - target.x == (1.0 - alpha) * (v.x - target.x)
    ensures r.y - target.y == (1.0 - alpha) * (v.y - target.y)
    ensures r.z - target.z == (1.0 - alpha) * (v.z - target.z)
  {
    Vec3(v.x + (target.x - v.x) * alpha, v.y + (target.y - v.y) * alpha, v.z + (target.z - v.z) * alpha)
  }

  /** `Vector3.multiplyScalar`. */
  function Scale(v: Vec3, s: real): Vec3 {
    Vec3(v.x * s, v.y * s, v.z * s)
  }

  /**
   * The current velocity after one frame with `keys` held: a blend toward the
   * target, then, only when the set is empty, the idle decay on top. Any held
   * key, movement key or not, suppresses the decay.
   */
  function FrameVelocity(current: Vec3, keys: set<string>, speed: real): (r: Vec3)
    ensures keys == {} ==> r == Scale(current, 0.68)
    ensures keys != {} ==>
              var t := Target(keys, speed);
              r.x - t.x == 0.85 * (current.x - t.x) && r.y == 0.85 * current.y && r.z - t.z == 0.85 * (current.z - t.z)
  {
    var blended := Lerp(current, Target(keys, speed), LerpFactor);
    if |keys| == 0 then Scale(blended, IdleDecay) else blended
  }

  /** The velocity handed to the body: the current x and z, with y pinned to 0. */
  function Written(current: Vec3): Vec3 {
    Vec3(current.x, 0.0, current.z)
  }

  /**
   * Pinning y is a projection onto the horizontal plane: the write is on that
   * plane, writing it again changes nothing, and a velocity is written
   * unchanged exactly when it is already horizontal.
   */
  lemma WrittenIsHorizontalProjection(v: Vec3)
    ensures Written(v).y == 0.0
    ensures Written(Written(v)) == Written(v)
    ensures Written(v) == v <==> v.y == 0.0
  {
  }

  /** The current velocity after `n` frames with the same key set held. */
  function Frames(current: Vec3, keys: set<string>, speed: real, n: nat): Vec3 {
    if n == 0 then current else FrameVelocity(Frames(current, keys, speed, n - 1), keys, speed)
  }

  function Pow(b: real, n: nat): (r: real)
    ensures 0.0 < b <= 1.0 ==> 0.0 < r <= 1.0
  {
    if n == 0 then 1.0
    else
      var p := Pow(b, n - 1);
      ProductOfFractions(b, p);
      b * p
  }

  lemma ProductOfFractions(a: real, b: real)
    ensures 0.0 < a <= 1.0 && 0.0 < b <= 1.0 ==> 0.0 < a * b <= b
  {
    if 0.0 < a <= 1.0 && 0.0 < b <= 1.0 {
      assert b - a * b == b * (1.0 - a);
    }
  }

  /** Idle example: a ball moving at x = 8 is at 5.44 after one idle frame, not 6.4. */
  lemma IdleFrameExample(speed: real)
    ensures FrameVelocity(Vec3(8.0, 0.0, 0.0), {}, speed) == Vec3(5.44, 0.0, 0.0)
  {
    assert Target({}, speed) == Zero;
    assert Lerp(Vec3(8.0, 0.0, 0.0), Zero, LerpFactor) == Vec3(6.8, 0.0, 0.0);
  }

  /** Holding a non-movement key: the same ball only blends toward 0, reaching 6.8. */
  lemma HeldOtherKeyExample(speed: real)
    ensures FrameVelocity(Vec3(8.0, 0.0, 0.0), {"shift"}, speed) == Vec3(6.8, 0.0, 0.0)
  {
  }

  /** One axis of a frame with keys held, repeated `n` times: move 15% of the way to `t`. */
  function Approach(v: real, t: real, n: nat): real {
    if n == 0 then v else t + 0.85 * (Approach(v, t, n - 1) - t)
  }

  /** Closed form of one axis: the distance to the target is multiplied by 0.85 per frame. */
  lemma {:induction false} ApproachClosedForm(v: real, t: real, n: nat)
    ensures Approach(v, t, n) - t == Pow(0.85, n) * (v - t)
  {
    if n > 0 {
      ApproachClosedForm(v, t, n - 1);
      var p := Pow(0.85, n - 1);
      assert Approach(v, t, n) - t == 0.85 * (p * (v - t));
    }
  }

  /** With the key set unchanged and non-empty, the frames act on each axis independently. */
  lemma {:induction false} HeldFramesPerAxis(current: Vec3, keys: set<string>, speed: real, n: nat)
    requires keys != {}
    ensures var t := Target(keys, speed);
            var r := Frames(current, keys, speed, n);
            r == Vec3(Approach(current.x, t.x, n), Approach(current.y, 0.0, n), Approach(current.z, t.z, n))
  {
    if n > 0 {
      HeldFramesPerAxis(current, keys, speed, n - 1);
    }
  }

  /** With the key set unchanged and non-empty, the distance to the target shrinks by 0.85 per frame. */
  lemma HeldKeysConverge(current: Vec3, keys: set<string>, speed: real, n: nat)
    requires keys != {}
    ensures var t := Target(keys, speed);
            var r := Frames(current, keys, speed, n);
            && r.x - t.x == Pow(0.85, n) * (current.x - t.x)
            && r.y == Pow(0.85, n) * current.y
            && r.z - t.z == Pow(0.85, n) * (current.z - t.z)
  {
    var t := Target(keys, speed);
    HeldFramesPerAxis(current, keys, speed, n);
    ApproachClosedForm(current.x, t.x, n);
    ApproachClosedForm(current.y, 0.0, n);
    ApproachClosedForm(current.z, t.z, n);
  }

  /** With no key held, every frame multiplies the velocity by 0.68. */
  lemma {:induction false} IdleFramesDecay(current: Vec3, speed: real, n: nat)
    ensures Frames(current, {}, speed, n) == Scale(current, Pow(0.68, n))
  {
    if n > 0 {
      IdleFramesDecay(current, speed, n - 1);
      var p := Pow(0.68, n - 1);
      calc {
        Frames(current, {}, speed, n);
        FrameVelocity(Frames(current, {}, speed, n - 1), {}, speed);
        Scale(Frames(current, {}, speed, n - 1), 0.68);
        Scale(Scale(current, p), 0.68);
        { ScaleTwice(current, p, 0.68); }
        Scale(current, 0.68 * p);
      }
    }
  }

  lemma ScaleTwice(v: Vec3, a: real, b: real)
    ensures Scale(Scale(v, a), b) == Scale(v, b * a)
  {
    assert (v.x * a) * b == v.x * (b * a);
    assert (v.y * a) * b == v.y * (b * a);
    assert (v.z * a) * b == v.z * (b * a);
  }

  /** A velocity component scaled by a factor in (0, 1] keeps its sign and never grows. */
  lemma ScaleByFraction(v: real, p: real)
    requires 0.0 < p <= 1.0
    ensures Geometry.Abs(v * p) <= Geometry.Abs(v)
    ensures v >= 0.0 ==> v * p >= 0.0
    ensures v <= 0.0 ==> v * p <= 0.0
  {
    assert v - v * p == v * (1.0 - p);
  }

  /** Idle frames never speed the ball up, on either horizontal axis, and never reverse it. */
  lemma IdleFramesNeverSpeedUp(current: Vec3, speed: real, n: nat)
    ensures Geometry.Abs(Frames(current, {}, speed, n).x) <= Geometry.Abs(current.x)
    ensures Geometry.Abs(Frames(current, {}, speed, n).z) <= Geometry.Abs(current.z)
    ensures Frames(current, {}, speed, n).x * current.x >= 0.0
  {
    IdleFramesDecay(current, speed, n);
    var p := Pow(0.68, n);
    assert 0.0 < p <= 1.0;
    ScaleByFraction(current.x, p);
    ScaleByFraction(current.z, p);
  }

  /** Between a and b, inclusive, in either order. */
  predicate Between(v: real, a: real, b: real) {
    (a <= v <= b) || (b <= v <= a)
  }

  /**
   * Holding keys never overshoots: after any number of frames every axis lies
   * between where it started and the target, and each frame moves it toward
   * the target.
   */
  lemma {:induction false} NoOvershoot(current: Vec3, keys: set<string>, speed: real, n: nat)
    requires keys != {}
    ensures var t := Target(keys, speed);
            var r := Frames(current, keys, speed, n);
            Between(r.x, current.x, t.x) && Between(r.z, current.z, t.z)
  {
    if n > 0 {
      NoOvershoot(current, keys, speed, n - 1);
    }
  }

  /** Each frame with keys held moves every axis toward the target, never past it. */
  lemma StepTowardTarget(current: Vec3, keys: set<string>, speed: real)
    requires keys != {}
    ensures var t := Target(keys, speed);
            var r := FrameVelocity(current, keys, speed);
            Between(r.x, current.x, t.x) && Between(r.z, current.z, t.z)
            && Geometry.Abs(r.x - t.x) <= Geometry.Abs(current.x - t.x)
            && Geometry.Abs(r.z - t.z) <= Geometry.Abs(current.z - t.z)
  {
  }

  /**
   * Holding 'w' from rest at speed 8: z after n frames is -8 + 8 * 0.85^n,
   * so it moves toward -8 and never passes it.
   */
  lemma ForwardFromRest(n: nat)
    ensures Frames(Zero, {"w"}, 8.0, n).z == -8.0 + 8.0 * Pow(0.85, n)
    ensures -8.0 <= Frames(Zero, {"w"}, 8.0, n).z <= 0.0
  {
    HeldKeysConverge(Zero, {"w"}, 8.0, n);
    NoOvershoot(Zero, {"w"}, 8.0, n);
  }

  // ---------------------------------------------------------------------------
  // Body configuration

  /** `adjustedPosition`: the prop's x and z at the fixed start height. */
  function AdjustedPosition(position: Vec3): Vec3 {
    Vec3(position.x, BallHeight, position.z)
  }

  /** The start height never depends on the prop's y. */
  lemma AdjustedPositionIgnoresHeight(p: Vec3, q: Vec3)
    requires p.x == q.x && p.z == q.z
    ensures AdjustedPosition(p) == AdjustedPosition(q)
    ensures AdjustedPosition(p).y == BallHeight
  {
  }

  /** The `useSphere` descriptor: a controllable ball is kinematic and massless, any other dynamic with mass 1. */
  function Descriptor(position: Vec3, controllable: bool): (d: BodyDescriptor)
    ensures d.bodyType == Kinematic <==> controllable
    ensures d.bodyType == Kinematic ==> d.mass == 0.0
    ensures d.bodyType == Dynamic ==> d.mass == 1.0
    ensures d.position.y == BallHeight && d.position.x == position.x && d.position.z == position.z
  {
    BodyDescriptor(if controllable then 0.0 else 1.0, if controllable then Kinematic else Dynamic,
                   AdjustedPosition(position))
  }

  // ---------------------------------------------------------------------------
  // The component's mutable state

  class Ball {
    const controllable: bool
    const speed: real
    /** What `useSphere` was given. */
    const body: BodyDescriptor

    /** `keysPressed.current`. */
    var keysPressed: set<string>
    /** `currentVelocity.current`. */
    var currentVelocity: Vec3
    /** `targetVelocity.current`. */
    var targetVelocity: Vec3
    /** Key listeners on `window`. */
    var listeners: set<KeyHandler>
    /** The component is mounted: the frame callback and effects are live. */
    var mounted: bool
    /** Last values passed to `api.velocity.set`, `api.mass.set`, `api.position.set`. */
    var velocityWritten: Option<Vec3>
    var massWritten: Option<real>
    var positionWritten: Option<Vec3>

    /**
     * Key listeners exist iff the ball is controllable and mounted; stored
     * keys are lowercase; the vertical velocity stays 0; a ball that is not
     * controllable never has keys, velocity or a velocity write.
     */
    ghost predicate Valid()
      reads this
    {
      && listeners == (if controllable && mounted then KeyHandlers else {})
      && (forall k :: k in keysPressed ==> ToLower(k) == k)
      && currentVelocity.y == 0.0
      && (!controllable ==> keysPressed == {} && currentVelocity == Zero && velocityWritten == None)
    }

    /** Mount: create the body, then run the keyboard effect and the initial-properties effect. */
    constructor (position: Vec3, isControllable: bool, ballSpeed: real)
      ensures Valid() && mounted
      ensures controllable == isControllable && speed == ballSpeed
      ensures body == Descriptor(position, isControllable)
      ensures keysPressed == {} && currentVelocity == Zero && targetVelocity == Zero
      ensures velocityWritten == None
      ensures massWritten == Some(body.mass)
      ensures positionWritten == if isControllable then Some(AdjustedPosition(position)) else None
    {
      controllable := isControllable;
      speed := ballSpeed;
      body := Descriptor(position, isControllable);
      keysPressed := {};
      currentVelocity := Zero;
      targetVelocity := Zero;
      listeners := {};
      mounted := true;
      velocityWritten := None;
      massWritten := None;
      positionWritten := None;
      new;
      AttachKeyListeners();
      SetInitialProperties(AdjustedPosition(position));
    }

    /** The keyboard effect: a ball that is not controllable attaches nothing. */
    method AttachKeyListeners()
      modifies this`listeners
      ensures listeners == if controllable then old(listeners) + KeyHandlers else old(listeners)
    {
      if !controllable {
        return;
      }
      listeners := listeners + {WindowKeyDown};
      listeners := listeners + {WindowKeyUp};
    }

    /** The initial-properties effect: mass 0 and the start position when controllable, else mass 1. */
    method SetInitialProperties(adjusted: Vec3)
      modifies this`massWritten, this`positionWritten
      ensures massWritten == Some(if controllable then 0.0 else 1.0)
      ensures positionWritten == if controllable then Some(adjusted) else old(positionWritten)
    {
      if controllable {
        massWritten := Some(0.0);
        positionWritten := Some(adjusted);
      } else {
        massWritten := Some(1.0);
      }
    }

    /** A 'keydown' on `window`: the lowercased key joins the set if the listener is attached. */
    method KeyDown(key: string)
      requires Valid()
      modifies this`keysPressed
      ensures Valid()
      ensures keysPressed == if WindowKeyDown in listeners then Press(old(keysPressed), key) else old(keysPressed)
    {
      if WindowKeyDown !in listeners {
        return;
      }
      ToLowerIdempotent(key);
      keysPressed := keysPressed + {ToLower(key)};
    }

    /** A 'keyup' on `window`: the lowercased key leaves the set if the listener is attached. */
    method KeyUp(key: string)
      requires Valid()
      modifies this`keysPressed
      ensures Valid()
      ensures keysPressed == if WindowKeyUp in listeners then Release(old(keysPressed), key) else old(keysPressed)
    {
      if WindowKeyUp !in listeners {
        return;
      }
      keysPressed := keysPressed - {ToLower(key)};
    }

    /**
     * The `useFrame` callback. A ball that is not controllable does nothing;
     * otherwise the target is rebuilt from the keys, the current velocity
     * blends toward it (and decays when no key is held), and the result is
     * written with y pinned to 0.
     */
    method Frame()
      requires Valid() && mounted
      modifies this`targetVelocity, this`currentVelocity, this`velocityWritten
      ensures Valid()
      ensures !controllable ==>
                targetVelocity == old(targetVelocity) && currentVelocity == old(currentVelocity) &&
                velocityWritten == old(velocityWritten)
      ensures controllable ==>
                && targetVelocity == Target(keysPressed, speed)
                && currentVelocity == FrameVelocity(old(currentVelocity), keysPressed, speed)
                && velocityWritten == Some(Written(currentVelocity))
                && velocityWritten == Some(currentVelocity)
    {
      if !controllable {
        return;
      }
      targetVelocity := Vec3(0.0, 0.0, 0.0);
      if "w" in keysPressed {
        targetVelocity := targetVelocity.(z := -speed);
      }
      if "s" in keysPressed {
        targetVelocity := targetVelocity.(z := speed);
      }
      if "a" in keysPressed {
        targetVelocity := targetVelocity.(x := -speed);
      }
      if "d" in keysPressed {
        targetVelocity := targetVelocity.(x := speed);
      }
      var lerpFactor := 0.15;
      currentVelocity := Lerp(currentVelocity, targetVelocity, lerpFactor);
      if |keysPressed| == 0 {
        currentVelocity := Scale(currentVelocity, 0.8);
      }
      velocityWritten := Some(Vec3(currentVelocity.x, 0.0, currentVelocity.z));
    }

    /** Unmount: the keyboard effect's cleanup removes both listeners. */
    method Unmount()
      requires Valid()
      modifies this`listeners, this`mounted
      ensures Valid() && !mounted && listeners == {}
    {
      listeners := listeners - {WindowKeyDown};
      listeners := listeners - {WindowKeyUp};
      mounted := false;
    }
  }

  /** A ball mounted with every prop at its default: at the origin, not controllable, speed 4. */
  method MountWithDefaults() returns (b: Ball)
    ensures fresh(b) && b.Valid() && b.mounted
    ensures !b.controllable && b.speed == DefaultSpeed && b.listeners == {}
    ensures b.body == BodyDescriptor(1.0, Dynamic, Vec3(0.0, BallHeight, 0.0))
  {
    b := new Ball(DefaultPosition, DefaultControllable, DefaultSpeed);
  }

  /**
   * A ball that is not controllable ignores the keyboard and its frames write
   * nothing, while its body is dynamic with mass 1.
   */
  method UncontrolledBallIsPassive(position: Vec3, key: string, speed: real)
    returns (keys: set<string>, written: Option<Vec3>, mass: Option<real>, bodyType: BodyType)
    ensures keys == {} && written == None && mass == Some(1.0) && bodyType == Dynamic
  {
    var b := new Ball(position, false, speed);
    b.KeyDown(key);
    b.Frame();
    keys, written, mass, bodyType := b.keysPressed, b.velocityWritten, b.massWritten, b.body.bodyType;
  }

  /**
   * A controllable ball steered by 'w' and 'a' for one frame from rest, at
   * speed 8: the velocity written is 15% of the way to (-8, 0, -8).
   */
  method SteerOneFrame(position: Vec3) returns (written: Option<Vec3>)
    ensures written == Some(Vec3(-1.2, 0.0, -1.2))
  {
    var b := new Ball(position, true, 8.0);
    assert ToLower("w") == "w" && ToLower("A") == "a" by {
      assert LowerChar('w') == 'w' && LowerChar('A') == 'a';
      assert ToLower("w") == [LowerChar('w')] + ToLower("");
      assert ToLower("A") == [LowerChar('A')] + ToLower("");
    }
    b.KeyDown("w");
    b.KeyDown("A");
    assert b.keysPressed == {"w", "a"};
    assert Target({"w", "a"}, 8.0) == Vec3(-8.0, 0.0, -8.0);
    b.Frame();
    written := b.velocityWritten;
  }
}

=== FILE: dom.dfy ===
/**
 * The part of the DOM the plain-script widget touches: the inline style of
 * the window element and the listeners registered on the title bar, the
 * close button and the document. A listener is identified by its handler;
 * adding a handler twice registers it once (`addEventListener` with the
 * same function object is a no-op), which a set models directly.
 */
module Dom {
  import opened Wrappers

  /** `style.display`: the stylesheet's value, `'flex'`, or `'none'`. */
  datatype Display = Unset | Flex | Hidden

  /** Inline style of the window element: `left`/`top` in px and `display`. */
  datatype Style = Style(left: Option<real>, top: Option<real>, display: Display)

  /** The handlers the widget registers, each on its own event target. */
  datatype Handler =
    | TitleBarMouseDown   // 'mousedown' on the title bar
    | CloseClick          // 'click' on the close button
    | DocumentMouseMove   // 'mousemove' on the document (handleMouseMove)
    | DocumentMouseUp     // 'mouseup' on the document (handleMouseUp)

  /** The style before any handler has written to it. */
  const InitialStyle := Style(None, None, Unset)

  /** The handlers attached at construction when both elements exist. */
  const ElementHandlers: set<Handler> := {TitleBarMouseDown, CloseClick}

  /** The handlers attached to the document for the length of a drag. */
  const DragHandlers: set<Handler> := {DocumentMouseMove, DocumentMouseUp}
}

=== FILE: geometry.dfy ===
/**
 * Screen-space geometry shared by the three window implementations: the
 * grab offset taken on mouse-down, the candidate position computed on
 * mouse-move, and the viewport clamp `Math.max(0, Math.min(v, max))`.
 * JavaScript numbers are modelled as idealised `real`s.
 */
module Geometry {

  /** A pair of client coordinates: a pointer, a top-left corner or an offset. */
  datatype Point = Point(x: real, y: real)

  /** Width and height of the viewport or of the window element. */
  datatype Size = Size(width: real, height: real)

  function Add(p: Point, q: Point): Point {
    Point(p.x + q.x, p.y + q.y)
  }

  function Sub(p: Point, q: Point): Point {
    Point(p.x - q.x, p.y - q.y)
  }

  function Abs(v: real): real {
    if v < 0.0 then -v else v
  }

  /** `Math.min` on two non-NaN numbers: the greater lower bound of the two, itself one of them. */
  function Min(a: real, b: real): (r: real)
    ensures r <= a && r <= b
    ensures r == a || r == b
  {
    if a <= b then a else b
  }

  /** `Math.max` on two non-NaN numbers: the least upper bound of the two, itself one of them. */
  function Max(a: real, b: real): (r: real)
    ensures r >= a && r >= b
    ensures r == a || r == b
  {
    if a >= b then a else b
  }

  /**
   * `Math.max(0, Math.min(v, max))`: the coordinate written on every move.
   * It lands in [0, max] when max >= 0 and collapses to 0 when the element
   * is larger than the viewport (max < 0).
   */
  function Clamp(v: real, max: real): (r: real)
    ensures r >= 0.0
    ensures max >= 0.0 ==> r <= max
    ensures 0.0 <= v <= max ==> r == v
    ensures max >= 0.0 && v > max ==> r == max
    ensures v < 0.0 || max < 0.0 ==> r == 0.0
  {
    Max(0.0, Min(v, max))
  }

  /** Per-axis clamp of a candidate top-left corner into [0, max]. */
  function ClampPoint(p: Point, max: Point): (r: Point)
    ensures r.x >= 0.0 && (max.x >= 0.0 ==> r.x <= max.x)
    ensures r.y >= 0.0 && (max.y >= 0.0 ==> r.y <= max.y)
    ensures max.x >= 0.0 && p.x > max.x ==> r.x == max.x
    ensures max.y >= 0.0 && p.y > max.y ==> r.y == max.y
    ensures p.x < 0.0 || max.x < 0.0 ==> r.x == 0.0
    ensures p.y < 0.0 || max.y < 0.0 ==> r.y == 0.0
    ensures 0.0 <= p.x <= max.x ==> r.x == p.x
    ensures 0.0 <= p.y <= max.y ==> r.y == p.y
    ensures InBounds(p, max) ==> r == p
  {
    Point(Clamp(p.x, max.x), Clamp(p.y, max.y))
  }

  predicate InBounds(p: Point, max: Point) {
    0.0 <= p.x <= max.x && 0.0 <= p.y <= max.y
  }

  /** `window.innerWidth - offsetWidth`, `window.innerHeight - offsetHeight`. */
  function MaxPosition(viewport: Size, element: Size): (r: Point)
    ensures r.x + element.width == viewport.width && r.y + element.height == viewport.height
  {
    Point(viewport.width - element.width, viewport.height - element.height)
  }

  /** Mouse-down: offset of the pointer from the window's bounding-rect top-left. */
  function GrabOffset(pointer: Point, rectTopLeft: Point): (r: Point)
    ensures Add(rectTopLeft, r) == pointer
  {
    Sub(pointer, rectTopLeft)
  }

  /** Mouse-move: unclamped top-left `pointer - dragOffset`. */
  function Candidate(pointer: Point, offset: Point): (r: Point)
    ensures Add(r, offset) == pointer
  {
    Sub(pointer, offset)
  }

  /** The position written by one mouse-move while dragging. */
  function DragTarget(pointer: Point, offset: Point, viewport: Size, element: Size): (r: Point)
    ensures var max := MaxPosition(viewport, element);
            && r.x >= 0.0 && (max.x >= 0.0 ==> r.x <= max.x)
            && r.y >= 0.0 && (max.y >= 0.0 ==> r.y <= max.y)
    ensures var c, max := Candidate(pointer, offset), MaxPosition(viewport, element);
            && (max.x >= 0.0 && c.x > max.x ==> r.x == max.x)
            && (max.y >= 0.0 && c.y > max.y ==> r.y == max.y)
            && (c.x < 0.0 || max.x < 0.0 ==> r.x == 0.0)
            && (c.y < 0.0 || max.y < 0.0 ==> r.y == 0.0)
            && (0.0 <= c.x <= max.x ==> r.x == c.x)
            && (0.0 <= c.y <= max.y ==> r.y == c.y)
    ensures InBounds(Candidate(pointer, offset), MaxPosition(viewport, element)) ==>
              r == Candidate(pointer, offset)
  {
    ClampPoint(Candidate(pointer, offset), MaxPosition(viewport, element))
  }

  /** Clamping a clamped coordinate changes nothing. */
  lemma ClampIdempotent(v: real, max: real)
    ensures Clamp(Clamp(v, max), max) == Clamp(v, max)
  {
  }

  /**
   * Independent characterisation: when the bounds are non-empty, the clamp is
   * the point of [0, max] nearest to the candidate.
   */
  lemma ClampIsNearest(v: real, max: real, w: real)
    requires 0.0 <= max && 0.0 <= w <= max
    ensures 0.0 <= Clamp(v, max) <= max
    ensures Abs(v - Clamp(v, max)) <= Abs(v - w)
  {
  }

  /** The clamp never moves a coordinate in the opposite direction: it is monotone. */
  lemma ClampMonotone(v: real, w: real, max: real)
    requires v <= w
    ensures Clamp(v, max) <= Clamp(w, max)
  {
  }

  /**
   * The window follows the pointer: after grabbing at `down`, a move to
   * `move` proposes the grabbed rect shifted by the pointer's displacement.
   * In particular a move back to the grab point proposes the rect itself.
   */
  lemma CandidateFollowsPointer(down: Point, rect: Point, move: Point)
    ensures Candidate(move, GrabOffset(down, rect)) == Add(rect, Sub(move, down))
    ensures Candidate(down, GrabOffset(down, rect)) == rect
  {
  }

  /**
   * Worked example: a 300x200 window at (100, 50) in a 1024x768 viewport,
   * grabbed at (150, 100). A move to (500, 100) lands at (450, 50) exactly;
   * a move to (1200, 100) is hard-clamped to x = 724, the right edge.
   */
  lemma DragExample()
    ensures GrabOffset(Point(150.0, 100.0), Point(100.0, 50.0)) == Point(50.0, 50.0)
    ensures DragTarget(Point(500.0, 100.0), Point(50.0, 50.0), Size(1024.0, 768.0), Size(300.0, 200.0))
            == Point(450.0, 50.0)
    ensures DragTarget(Point(1200.0, 100.0), Point(50.0, 50.0), Size(1024.0, 768.0), Size(300.0, 200.0))
            == Point(724.0, 50.0)
  {
  }
}

=== FILE: react_window.dfy ===
/**
 * The React draggable window (`DominoWindow` in src/DominoWindow.tsx).
 *
 * Component state (`position`, `isDragging`, `isVisible`) and the
 * `dragOffset` ref become fields. A handler's state updates are applied and
 * then the commit that React performs after the event is modelled by
 * `SyncListeners`, the effect that registers the document listeners while
 * `isDragging` holds and removes them otherwise. `windowMounted` stands for
 * `windowRef.current != null`: the div is mounted exactly while the
 * component renders it. `onClose` is optional; `onCloseCalls` counts its
 * invocations.
 */
module ReactWindow {
  import opened Wrappers
  import opened Geometry
  import opened Dom

  /** `useState<Position>({ x: 20, y: 50 })`. */
  const InitialPosition := Point(20.0, 50.0)

  class DominoWindow {
    /** The `onClose` prop was supplied. */
    const hasOnClose: bool

    var position: Point
    var isDragging: bool
    var isVisible: bool
    var dragOffset: Point
    var windowMounted: bool
    /** Listeners registered on the document by the effect. */
    var listeners: set<Handler>
    var onCloseCalls: nat

    /**
     * The effect keeps the document listeners in step with `isDragging`; the
     * div is mounted iff it is rendered; `onClose` has run once after a close
     * and never before.
     */
    ghost predicate Valid()
      reads this
    {
      && listeners == (if isDragging then DragHandlers else {})
      && windowMounted == isVisible
      && onCloseCalls == (if hasOnClose && !isVisible then 1 else 0)
    }

    /** What the component renders: the div at `position`, or nothing once closed. */
    function Rendered(): Option<Point>
      reads this
    {
      if isVisible then Some(position) else None
    }

    /** First render and commit: the initial state, no document listeners. */
    constructor (onCloseGiven: bool)
      ensures Valid()
      ensures hasOnClose == onCloseGiven
      ensures position == InitialPosition && !isDragging && isVisible
      ensures dragOffset == Point(0.0, 0.0) && listeners == {} && onCloseCalls == 0
    {
      hasOnClose := onCloseGiven;
      position := InitialPosition;
      isDragging := false;
      isVisible := true;
      dragOffset := Point(0.0, 0.0);
      windowMounted := true;
      listeners := {};
      onCloseCalls := 0;
    }

    /** The listener effect, run after each commit in which `isDragging` changed. */
    method SyncListeners()
      requires listeners <= DragHandlers
      modifies this`listeners
      ensures listeners == if isDragging then DragHandlers else {}
    {
      if isDragging {
        listeners := listeners + {DocumentMouseMove};
        listeners := listeners + {DocumentMouseUp};
      } else {
        listeners := listeners - {DocumentMouseMove};
        listeners := listeners - {DocumentMouseUp};
      }
    }

    /**
     * `handleMouseDown` on the title bar: with the div mounted, start the drag
     * and record the grab offset from the current bounding rect; without it,
     * nothing happens.
     */
    method MouseDown(pointer: Point, rect: Point)
      requires Valid()
      modifies this`isDragging, this`dragOffset, this`listeners
      ensures Valid()
      ensures !windowMounted ==> isDragging == old(isDragging) && dragOffset == old(dragOffset) && listeners == old(listeners)
      ensures windowMounted ==> isDragging && dragOffset == GrabOffset(pointer, rect) && listeners == DragHandlers
    {
      if !windowMounted {
        return;
      }
      isDragging := true;
      dragOffset := Point(pointer.x - rect.x, pointer.y - rect.y);
      SyncListeners();
    }

    /**
     * `handleMouseMove`, delivered only while its document listener is
     * registered: the new position is the per-axis clamp of
     * `pointer - dragOffset`; outside a drag, or with no mounted div, nothing
     * changes.
     */
    method MouseMove(pointer: Point, viewport: Size, element: Size)
      requires Valid()
      modifies this`position
      ensures Valid()
      ensures !isDragging || !windowMounted ==> position == old(position)
      ensures isDragging && windowMounted ==> position == DragTarget(pointer, dragOffset, viewport, element)
    {
      if DocumentMouseMove !in listeners {
        return;
      }
      if !isDragging || !windowMounted {
        return;
      }
      var newX := pointer.x - dragOffset.x;
      var newY := pointer.y - dragOffset.y;
      var maxX := viewport.width - element.width;
      var maxY := viewport.height - element.height;
      var constrainedX := Max(0.0, Min(newX, maxX));
      var constrainedY := Max(0.0, Min(newY, maxY));
      position := Point(constrainedX, constrainedY);
    }

    /** `handleMouseUp`: the drag ends, the effect removes the listeners, the position stays. */
    method MouseUp()
      requires Valid()
      modifies this`isDragging, this`listeners
      ensures Valid()
      ensures !isDragging && listeners == {}
    {
      if DocumentMouseUp !in listeners {
        return;
      }
      isDragging := false;
      SyncListeners();
    }

    /**
     * A click on the close button, which is only rendered while visible
     * (`handleClose`): hide the window, call `onClose` if given, and render
     * nothing from then on.
     */
    method ClickClose()
      requires Valid()
      modifies this`isVisible, this`windowMounted, this`onCloseCalls
      ensures Valid()
      ensures !isVisible && Rendered() == None
      ensures onCloseCalls == if hasOnClose then 1 else 0
    {
      if !isVisible {
        return;
      }
      isVisible := false;
      if hasOnClose {
        onCloseCalls := onCloseCalls + 1;
      }
      windowMounted := false;
    }
  }

  /**
   * A drag session from the initial state: the window moves to the clamped
   * target of the move; releasing keeps it there and unregisters everything,
   * so a later move has no effect.
   */
  method DragSession(down: Point, rect: Point, move: Point, later: Point, viewport: Size, element: Size)
    returns (rendered: Option<Point>, dragging: bool, registered: set<Handler>)
    ensures rendered == Some(DragTarget(move, GrabOffset(down, rect), viewport, element))
    ensures !dragging && registered == {}
  {
    var w := new DominoWindow(true);
    w.MouseDown(down, rect);
    w.MouseMove(move, viewport, element);
    w.MouseUp();
    w.MouseMove(later, viewport, element);
    rendered, dragging, registered := w.Rendered(), w.isDragging, w.listeners;
  }

  /** Closing twice calls `onClose` once; afterwards a mouse-down starts no drag. */
  method CloseTwice(down: Point, rect: Point) returns (rendered: Option<Point>, calls: nat, dragging: bool)
    ensures rendered == None && calls == 1 && !dragging
  {
    var w := new DominoWindow(true);
    w.ClickClose();
    w.ClickClose();
    w.MouseDown(down, rect);
    rendered, calls, dragging := w.Rendered(), w.onCloseCalls, w.isDragging;
  }
}

=== FILE: script_js.dfy ===
/**
 * The compiled JavaScript form of the plain-script window (`class
 * DominoWindow` in script.js). Its behaviour matches the TypeScript class
 * line for line: `handleMouseMove` and `handleMouseUp` are arrow functions
 * stored on the instance by the constructor before the element lookups, so
 * each has one identity for the object's lifetime and adding or removing it
 * twice is the same as once. The DOM is abstracted as in module ScriptTs.
 */
module ScriptJs {
  import opened Wrappers
  import opened Geometry
  import opened Dom

  class DominoWindow {
    /** `document.getElementById('domino-window')` returned an element. */
    const hasWindow: bool
    /** `document.getElementById('close-btn')` returned an element. */
    const hasCloseBtn: bool

    var isDragging: bool
    var dragOffset: Point
    var style: Style
    var listeners: set<Handler>

    /** Both elements were found, so the constructor wired the widget up. */
    predicate Active() {
      hasWindow && hasCloseBtn
    }

    /** Element listeners exist iff the widget is wired; document listeners iff a drag is on. */
    ghost predicate Valid()
      reads this
    {
      && listeners == (if Active() then ElementHandlers else {}) + (if isDragging then DragHandlers else {})
      && (isDragging ==> Active())
    }

    constructor (windowFound: bool, closeBtnFound: bool)
      ensures Valid()
      ensures hasWindow == windowFound && hasCloseBtn == closeBtnFound
      ensures !isDragging && dragOffset == Point(0.0, 0.0) && style == InitialStyle
      ensures listeners == if windowFound && closeBtnFound then ElementHandlers else {}
    {
      isDragging := false;
      dragOffset := Point(0.0, 0.0);
      hasWindow := windowFound;
      hasCloseBtn := closeBtnFound;
      style := InitialStyle;
      listeners := {};
      new;
      if hasWindow && hasCloseBtn {
        InitializeDragBehavior();
        InitializeCloseButton();
      }
    }

    method InitializeDragBehavior()
      requires hasWindow
      modifies this`listeners
      ensures listeners == old(listeners) + {TitleBarMouseDown}
    {
      listeners := listeners + {TitleBarMouseDown};
    }

    method InitializeCloseButton()
      requires hasCloseBtn
      modifies this`listeners
      ensures listeners == old(listeners) + {CloseClick}
    {
      listeners := listeners + {CloseClick};
    }

    /** The title bar's 'mousedown' listener: start (or restart) a drag from the current rect. */
    method MouseDown(pointer: Point, rect: Point)
      requires Valid()
      modifies this`isDragging, this`dragOffset, this`listeners
      ensures Valid()
      ensures Active() ==> isDragging && dragOffset == GrabOffset(pointer, rect)
      ensures Active() ==> listeners == ElementHandlers + DragHandlers
      ensures !Active() ==> !isDragging && dragOffset == old(dragOffset) && listeners == {}
    {
      if TitleBarMouseDown !in listeners {
        return;
      }
      isDragging := true;
      dragOffset := Point(pointer.x - rect.x, pointer.y - rect.y);
      listeners := listeners + {DocumentMouseMove};
      listeners := listeners + {DocumentMouseUp};
    }

    /** `handleMouseMove`: ignored unless dragging; otherwise writes the clamped candidate to left/top. */
    method MouseMove(pointer: Point, viewport: Size, element: Size)
      requires Valid()
      modifies this`style
      ensures Valid()
      ensures !isDragging ==> style == old(style)
      ensures isDragging ==>
                var p := DragTarget(pointer, dragOffset, viewport, element);
                style == old(style).(left := Some(p.x), top := Some(p.y))
    {
      if DocumentMouseMove !in listeners || !isDragging {
        return;
      }
      var newX := pointer.x - dragOffset.x;
      var newY := pointer.y - dragOffset.y;
      var maxX := viewport.width - element.width;
      var maxY := viewport.height - element.height;
      var constrainedX := Max(0.0, Min(newX, maxX));
      var constrainedY := Max(0.0, Min(newY, maxY));
      style := style.(left := Some(constrainedX), top := Some(constrainedY));
    }

    /** `handleMouseUp`: clears the drag flag and removes both document listeners. */
    method MouseUp()
      requires Valid()
      modifies this`isDragging, this`listeners
      ensures Valid()
      ensures !isDragging
      ensures listeners == if Active() then ElementHandlers else {}
    {
      if DocumentMouseUp !in listeners {
        return;
      }
      isDragging := false;
      listeners := listeners - {DocumentMouseMove};
      listeners := listeners - {DocumentMouseUp};
    }

    /** The close button's 'click' listener: display none, nothing else. */
    method ClickClose()
      requires Valid()
      modifies this`style
      ensures Valid()
      ensures style == if Active() then old(style).(display := Hidden) else old(style)
    {
      if CloseClick !in listeners {
        return;
      }
      style := style.(display := Hidden);
    }

    /** `show()`; throws (`ok` false) when there is no window element. */
    method Show() returns (ok: bool)
      requires Valid()
      modifies this`style
      ensures Valid()
      ensures ok == hasWindow
      ensures style == if hasWindow then old(style).(display := Flex) else old(style)
    {
      ok := hasWindow;
      if ok {
        style := style.(display := Flex);
      }
    }

    /** `hide()`; throws (`ok` false) when there is no window element. */
    method Hide() returns (ok: bool)
      requires Valid()
      modifies this`style
      ensures Valid()
      ensures ok == hasWindow
      ensures style == if hasWindow then old(style).(display := Hidden) else old(style)
    {
      ok := hasWindow;
      if ok {
        style := style.(display := Hidden);
      }
    }
  }

  /**
   * A second mouse-down during a drag only re-captures the grab offset: the
   * document listeners are not registered twice, so the single mouse-up that
   * follows leaves no document listener behind.
   */
  method RepeatedMouseDown(first: Point, second: Point, rect: Point)
    returns (offset: Point, registeredDuringDrag: set<Handler>, registeredAfter: set<Handler>)
    ensures offset == GrabOffset(second, rect)
    ensures registeredDuringDrag == ElementHandlers + DragHandlers
    ensures registeredAfter == ElementHandlers
  {
    var w := new DominoWindow(true, true);
    w.MouseDown(first, rect);
    w.MouseDown(second, rect);
    offset, registeredDuringDrag := w.dragOffset, w.listeners;
    w.MouseUp();
    registeredAfter := w.listeners;
  }

  /**
   * Hiding and showing only flip `display`: a window dragged to some place
   * keeps its left/top through a hide and a show.
   */
  method HideShowKeepsPosition(down: Point, rect: Point, move: Point, viewport: Size, element: Size)
    returns (before: Style, after: Style)
    ensures before.left.Some? && before.top.Some?
    ensures after == before.(display := Flex)
  {
    var w := new DominoWindow(true, true);
    w.MouseDown(down, rect);
    w.MouseMove(move, viewport, element);
    w.MouseUp();
    before := w.style;
    var hidden := w.Hide();
    var shown := w.Show();
    after := w.style;
  }
}

=== FILE: script_ts.dfy ===
/**
 * The plain-script draggable window (`class DominoWindow` in script.ts).
 *
 * The DOM is abstracted: whether the window and close-button elements were
 * found is fixed at construction; the bounding rect, the viewport and the
 * element size are parameters of the events that read them; the inline
 * style is a `Style` value; and the registered listeners are a set of
 * handlers. Each event method first checks that its listener is registered
 * (the browser only delivers events to registered listeners) and then runs
 * the handler body.
 */
module ScriptTs {
  import opened Wrappers
  import opened Geometry
  import opened Dom

  class DominoWindow {
    /** `document.getElementById('domino-window')` found an element. */
    const hasWindow: bool
    /** `document.getElementById('close-btn')` found an element. */
    const hasCloseBtn: bool

    var isDragging: bool
    var dragOffset: Point
    /** `this.window.style`: left, top and display. */
    var style: Style
    /** Handlers currently registered on the title bar, close button and document. */
    var listeners: set<Handler>

    /** Both elements were found, so the constructor wired the widget up. */
    predicate Active() {
      hasWindow && hasCloseBtn
    }

    /**
     * The element handlers are attached exactly when the widget is active,
     * and the document handlers exactly while a drag is in progress.
     */
    ghost predicate Valid()
      reads this
    {
      && listeners == (if Active() then ElementHandlers else {}) + (if isDragging then DragHandlers else {})
      && (isDragging ==> Active())
    }

    constructor (windowFound: bool, closeBtnFound: bool)
      ensures Valid()
      ensures hasWindow == windowFound && hasCloseBtn == closeBtnFound
      ensures !isDragging && dragOffset == Point(0.0, 0.0) && style == InitialStyle
      ensures listeners == if windowFound && closeBtnFound then ElementHandlers else {}
    {
      hasWindow := windowFound;
      hasCloseBtn := closeBtnFound;
      isDragging := false;
      dragOffset := Point(0.0, 0.0);
      style := InitialStyle;
      listeners := {};
      new;
      if hasWindow && hasCloseBtn {
        InitializeDragBehavior();
        InitializeCloseButton();
      }
    }

    /** Attaches the 'mousedown' listener to the title bar. */
    method InitializeDragBehavior()
      requires hasWindow
      modifies this`listeners
      ensures listeners == old(listeners) + {TitleBarMouseDown}
    {
      listeners := listeners + {TitleBarMouseDown};
    }

    /** Attaches the 'click' listener to the close button. */
    method InitializeCloseButton()
      requires hasCloseBtn
      modifies this`listeners
      ensures listeners == old(listeners) + {CloseClick}
    {
      listeners := listeners + {CloseClick};
    }

    /**
     * A mouse-down on the title bar with the pointer at `pointer` while the
     * window's bounding rect has top-left `rect`. An inert widget ignores it;
     * otherwise the drag starts, the grab offset is recorded and both document
     * listeners are (re-)registered, which is idempotent.
     */
    method MouseDown(pointer: Point, rect: Point)
      requires Valid()
      modifies this`isDragging, this`dragOffset, this`listeners
      ensures Valid()
      ensures Active() ==> isDragging && dragOffset == GrabOffset(pointer, rect)
      ensures Active() ==> listeners == old(listeners) + DragHandlers
      ensures !Active() ==> !isDragging && dragOffset == old(dragOffset) && listeners == {}
    {
      if TitleBarMouseDown !in listeners {
        return;
      }
      isDragging := true;
      dragOffset := Point(pointer.x - rect.x, pointer.y - rect.y);
      listeners := listeners + {DocumentMouseMove};
      listeners := listeners + {DocumentMouseUp};
    }

    /**
     * A mouse-move anywhere in the document (`handleMouseMove`). Outside a
     * drag nothing changes; during one, left/top become the per-axis clamp of
     * `pointer - dragOffset` into [0, viewport - element size].
     */
    method MouseMove(pointer: Point, viewport: Size, element: Size)
      requires Valid()
      modifies this`style
      ensures Valid()
      ensures !isDragging ==> style == old(style)
      ensures isDragging ==>
                var p := DragTarget(pointer, dragOffset, viewport, element);
                style == old(style).(left := Some(p.x), top := Some(p.y))
    {
      if DocumentMouseMove !in listeners || !isDragging {
        return;
      }
      var newX := pointer.x - dragOffset.x;
      var newY := pointer.y - dragOffset.y;
      var maxX := viewport.width - element.width;
      var maxY := viewport.height - element.height;
      var constrainedX := Max(0.0, Min(newX, maxX));
      var constrainedY := Max(0.0, Min(newY, maxY));
      style := style.(left := Some(constrainedX), top := Some(constrainedY));
    }

    /** A mouse-up anywhere in the document (`handleMouseUp`): the drag ends and both document listeners go. */
    method MouseUp()
      requires Valid()
      modifies this`isDragging, this`listeners
      ensures Valid()
      ensures !isDragging
      ensures listeners == old(listeners) - DragHandlers
    {
      if DocumentMouseUp !in listeners {
        return;
      }
      isDragging := false;
      listeners := listeners - {DocumentMouseMove};
      listeners := listeners - {DocumentMouseUp};
    }

    /** A click on the close button hides an active widget; position and drag state are untouched. */
    method ClickClose()
      requires Valid()
      modifies this`style
      ensures Valid()
      ensures style == if Active() then old(style).(display := Hidden) else old(style)
    {
      if CloseClick !in listeners {
        return;
      }
      style := style.(display := Hidden);
    }

    /** `show()`: display becomes flex. Without a window element the call throws (`ok` is false). */
    method Show() returns (ok: bool)
      requires Valid()
      modifies this`style
      ensures Valid()
      ensures ok == hasWindow
      ensures style == if hasWindow then old(style).(display := Flex) else old(style)
    {
      ok := hasWindow;
      if ok {
        style := style.(display := Flex);
      }
    }

    /** `hide()`: display becomes none. Without a window element the call throws (`ok` is false). */
    method Hide() returns (ok: bool)
      requires Valid()
      modifies this`style
      ensures Valid()
      ensures ok == hasWindow
      ensures style == if hasWindow then old(style).(display := Hidden) else old(style)
    {
      ok := hasWindow;
      if ok {
        style := style.(display := Hidden);
      }
    }
  }

  /**
   * A complete drag on a fully wired page: grab, one move, release, then a
   * further move. The window stays where the first move put it, because the
   * release removed the document listeners and cleared the drag flag.
   */
  method DragThenRelease(down: Point, rect: Point, move: Point, later: Point, viewport: Size, element: Size)
    returns (final: Style, dragging: bool, registered: set<Handler>)
    ensures var p := DragTarget(move, GrabOffset(down, rect), viewport, element);
            final == InitialStyle.(left := Some(p.x), top := Some(p.y))
    ensures !dragging && registered == ElementHandlers
  {
    var w := new DominoWindow(true, true);
    w.MouseDown(down, rect);
    w.MouseMove(move, viewport, element);
    w.MouseUp();
    w.MouseMove(later, viewport, element);
    final, dragging, registered := w.style, w.isDragging, w.listeners;
  }

  /** On a page missing either element, no event changes the widget. */
  method InertWithoutElements(windowFound: bool, closeBtnFound: bool, down: Point, rect: Point, move: Point,
                              viewport: Size, element: Size)
    returns (final: Style, dragging: bool, registered: set<Handler>)
    requires !windowFound || !closeBtnFound
    ensures final == InitialStyle && !dragging && registered == {}
  {
    var w := new DominoWindow(windowFound, closeBtnFound);
    w.MouseDown(down, rect);
    w.MouseMove(move, viewport, element);
    w.ClickClose();
    w.MouseUp();
    final, dragging, registered := w.style, w.isDragging, w.listeners;
  }
}

=== FILE: wrappers.dfy ===
/** Optional values: an unset style property, a value not yet written to the physics body. */
module Wrappers {

  datatype Option<+T> = None | Some(value: T)
}
